=== FILE: README.md ===
# Hangar bot core, modelled in Dafny

The hangar bot links a chat user's game characters (and corporation
characters) through OAuth, reads each linked identity's assets and checks them
against the user's requirements file. This project models the sequential logic
of its command module `src/main.py` as pure functions over strings, sequences
and maps:

- `MessageSplitter` (`message_splitter.dfy`): `send_large_message`, which cuts
  a long reply into messages of at most `max_chars` characters, preferring to
  cut at the last newline in reach and dropping that newline.
- `AssetAggregator` (`asset_aggregator.dfy`): `get_author_assets`, which
  fetches one snapshot per linked identity, characters first, then corporation
  characters. A failing character fetch ends the whole run. A corporation
  fetch rejected with an assertion failure deletes that identity and is
  skipped. Any other corporation failure ends the run and keeps the deletions
  made before it.
- `ChallengeTable` (`challenge_table.dfy`): the challenge replacement in
  `auth`. It fetches or creates the user, deletes all of that user's pending
  challenges and inserts one holding the new state.
- `CheckReport` (`check_report.dfy`): the reply of `check`. Each identity's
  header is written lazily before its first error line. The accumulated reply
  is sent early when its length plus that of the next error line and of the
  pending header (the newline not counted) would pass 1990 characters. The final message depends
  on whether any identity was seen and whether any error was found.
- `IdentityStore` (`identity_store.dfy`): the user, identity and challenge
  tables as plain values.

The network and the random source are parameters:
- a fetch function gives each identity's outcome;
- the requirement checker's error lines arrive paired with each snapshot;
- the challenge state is an argument.

Sending a chat message is appending to a list of sent messages. The lazy
generator of `get_author_assets` is the list of snapshots it yields plus a flag
saying whether it ended by an exception.

Each operation is paired with an independent description:
- the splitter with a rejoin function that must give back the message;
- the corporation loop with a non-iterative description split at the first
  fatal failure;
- the challenge update with a per-user view of the challenge table;
- the report fold with the reference report text, where an identity without
  errors has no section, and with a greedy packing of the report's units (an
  identity's header with its first error line, then each further line) into
  messages, each closed only when the next unit would not fit.

## Model

| member | source | states |
|---|---|---|
| MessageSplitter.LastNewline | src/main.py:77 | the result is -1 or an index below the end bound holding a newline, with no newline after it before the bound (Python `rfind('\n', 0, end)`) |
| MessageSplitter.NextCutFacts | src/main.py:77-84 | one iteration on a too-long message: the piece sent, the newline dropped at a newline cut and the remaining message make up the message again; the remainder is non-empty; the piece respects the limits below; a newline cut is at the last newline among the first `max_chars` characters |
| MessageSplitter.Split | src/main.py:71-84 | no pieces exactly for the empty message; each iteration consumes at least one character, so there are never more pieces than characters |
| MessageSplitter.SplitWellCut | src/main.py:71-84 | every piece has at most `max_chars` characters; a newline cut leaves fewer than `max_chars`; a hard cut takes exactly `max_chars` characters, none of them a newline; only the last piece is sent whole |
| MessageSplitter.SplitRejoin | src/main.py:77-84 | rejoining the pieces and re-inserting the dropped newline at each newline cut gives back the original message |
| MessageSplitter.SplitCutsAtLastNewline | src/main.py:77-84 | after every newline cut, the text that follows has no newline inside the rest of the `max_chars` window, so each cut is at the last newline in reach, as `rfind` picks it |
| MessageSplitter.SplitCutsOnlyWhenTooLong | src/main.py:72-76 | the loop cuts only while what is left is longer than `max_chars`: from every piece but the last, the rest of the message (dropped newlines included) is longer than `max_chars`, so a remainder that fits is sent whole; with `SplitWellCut`, `SplitRejoin` and `SplitCutsAtLastNewline` this fixes every cut |
| MessageSplitter.SendLargeMessage | src/main.py:71-84 | the while loop sends exactly the pieces of `Split`, in order; nothing for an empty message; a message of at most `max_chars` characters is sent once, unchanged; no sent message exceeds `max_chars` |
| AssetAggregator.CollectCharacters | src/main.py:57-60 | the snapshots yielded are those of the longest prefix of characters whose fetch succeeded, in stored order; the loop aborts exactly when some character fetch fails, right at the first failure |
| AssetAggregator.FirstFatalIsFirst | src/main.py:61-68 | `FirstFatal` is the index of the first corporation identity whose fetch fails with something other than an assertion failure, or the number of identities |
| AssetAggregator.SurvivingMembers | src/main.py:65-66 | an identity survives exactly when it was in the list and its fetch was not rejected with an assertion failure |
| AssetAggregator.CollectedSnapshots | src/main.py:61-68 | the corporation loop yields the fetched snapshots of the identities before the first fatal failure, in order |
| AssetAggregator.CollectedKept | src/main.py:61-66 | the corporation loop deletes the rejected identities before the first fatal failure and leaves the identities from the fatal one on untouched |
| AssetAggregator.CollectedAborted | src/main.py:61-68 | the corporation loop ends by an exception exactly when some identity fails fatally |
| AssetAggregator.CollectCorporationsSpec | src/main.py:61-68 | the three rows above together: the loop equals a non-iterative description split at the first fatal failure |
| AssetAggregator.KeptCorporations | src/main.py:61-68 | an identity remains exactly when it was not rejected before the first fatal failure or lies at or after it; with no fatal failure, exactly the identities that were not rejected remain |
| AssetAggregator.GetAuthorAssets | src/main.py:54-68 | an unknown user yields nothing and changes nothing; other users and the characters are never touched; a failing character aborts after yielding every character before the first failing one and nothing after it, with nothing deleted; otherwise all character snapshots come first in stored order, then the corporation snapshots in stored order |
| ChallengeTable.DeleteChallenges | src/main.py:231 | the rows left are exactly the rows of other users, and the table shrinks by the number of the user's challenges |
| ChallengeTable.DeleteChallengesStates | src/main.py:231 | after deletion the user has no challenges, and every other user's challenges are unchanged and in the same order |
| ChallengeTable.GetOrCreate | src/main.py:230 | the user exists afterwards; an existing user row is untouched; a new user gets an empty account |
| ChallengeTable.Auth | src/main.py:228-232 | afterwards the user exists and has exactly one challenge, holding the new state; every other user's challenges and every existing user row are unchanged |
| ChallengeTable.AuthKeepsAtMostOnePerUser | src/main.py:231-232 | the challenge replacement preserves "no user has two pending challenges" |
| ChallengeTable.LatestChallengeWins | src/main.py:228-232 | after any non-empty sequence of `auth` calls by one user, that user holds exactly the challenge of the latest call |
| CheckReport.Header | src/main.py:128-131 | the header is never empty; it starts with a newline and `## ` and ends with a newline, so it is always written before the first error line |
| CheckReport.Check | src/main.py:123-156 | no snapshots: only "no authorized characters"; requirements set and no error: only "No State Errors found"; errors: the sent messages concatenate to the reference report; aborted run: what was sent is a prefix of the reference report; with a requirements file and errors, the sent messages are the report's units packed greedily (see `PackedReply`), so no message is sent early without need; with a requirements file, each sent message and the next together pass 1990 characters; no requirements file: one notice per snapshot, then the final reply |
| CheckReport.CheckCommand | src/main.py:123-156 | an unknown user gets only "no authorized characters"; a first character whose fetch fails leads to nothing being sent; with no requirements file the first message is the notice |
| CheckReport.AddLineText | src/main.py:138-146 | handling one error line adds the pending header, the line and a newline to the written text; a flush moves text without losing any |
| CheckReport.AddEntriesText | src/main.py:135-146 | with a requirements file set, the text written by the loop is exactly the reference report: for each identity with errors, its header then its lines, and nothing for an identity without errors |
| CheckReport.AddEntriesHasErrors | src/main.py:135-136 | the error flag is set exactly when a requirements file is set and some identity has an error line |
| CheckReport.NoErrorsNothingSent | src/main.py:150-154 | with no error lines the loop sends nothing and leaves the reply empty |
| CheckReport.AddEntriesWithoutRequirements | src/main.py:147-148 | without a requirements file every snapshot sends the notice once and nothing else changes |
| CheckReport.AddLineFlushOnlyWhenFull | src/main.py:138-146 | one error line keeps every written message and the next together longer than 1990 characters; this is necessary for the flush rule but not sufficient, and `AddLinePacks` states the exact rule |
| CheckReport.AddEntriesFlushOnlyWhenFull | src/main.py:126-146 | with a requirements file set, the whole loop keeps every written message and the next together longer than 1990 characters; necessary but not sufficient for the flush rule, which `AddEntriesPack` states exactly |
| CheckReport.AddLinePacks | src/main.py:138-146 | one error line keeps the written messages a greedy packing of the units written so far: its unit (pending header, line, newline) opens a new message exactly when the flush test fires, which is when the reply plus the unit would pass 1991 characters, and joins the reply otherwise |
| CheckReport.AddEntriesPack | src/main.py:126-146 | with a requirements file set, the loop over the snapshots keeps the written messages a greedy packing of the units written so far |
| CheckReport.PackedReply | src/main.py:126-146 | with a requirements file set, the messages written are the report's units cut into consecutive runs: a message that had a unit added to it is at most 1991 characters, and each message is closed only because the first unit of the next would have taken it past 1991 characters |
| CheckReport.UnitsText | src/main.py:128-146 | the units concatenate to the reference report, so the packing covers exactly the report text |
| CheckReport.CheckMessagesFit | src/main.py:138-146 | when each header plus each of its lines fits in 1990 characters, every sent message is non-empty and at most 1991 characters long |
| CheckReport.HeaderStaysWithFirstLine | src/main.py:138-146 | every identity with errors has its header and its first error line sent together in one message, header first |

## Left out

- The chat surface: bot setup, command decorators, and message delivery through
  `ctx.send` / `ctx.author.send`. Sending is appending to a list. The
  "Fetching assets..." notice at the top of `check` is not part of the model.
- The `state`, `buy`, `set`, `get`, `characters` and `revoke` commands. They are
  I/O around the modelled pieces, and `revoke` is unimplemented.
- The asset provider client and `with_refresh`. The `Assets` class and its
  `fetch`, `check_requirement`, `get_buy_list` and `save_requirement` are not
  part of this model. Fetch outcomes and error lines are inputs.
- The authorize link built in `auth`. It is the provider's URL with the state
  appended, and the provider client is not part of this model.
- The randomness of `secrets.token_urlsafe(60)`. The state is a parameter,
  and the model does not constrain its length or alphabet.
- The callback server that consumes a challenge. It is not part of this model.
- The database library and transactions. Tables are plain maps and sequences,
  and `auth`'s delete-then-insert is one atomic step.
- Interleaving of commands. The bot runs each chat command as its own task,
  and tasks interleave at every `await`. The model treats commands as running
  one at a time. In particular `check` reads the user's requirements file once
  per run, where the source reads the user row again for every yielded
  snapshot, so a `set` arriving mid-run can switch later snapshots from the
  notice to error lines. Likewise `get_author_assets` reads the corporation
  identities after the character fetches as if nothing changed in between.
- Async laziness. The generator is an eagerly built list plus an abort flag. If
  a consumer stops iterating early, later identities are still counted as
  processed.
- Row order. The source iterates identities in the order the database returns
  them, with no explicit ordering; the model takes that order as the list order.
- The requirements file is a string, and the empty string stands for "not set".
  Python treats both `None` and `""` as not set.
- MessageSplitter.SendLargeMessage: requires `max_chars >= 1`. For smaller
  values and a non-empty message the source loop never ends: with 0 it sends
  empty messages forever, and negative values slice from the end of the string
  and never empty it. An empty message leaves the loop at once for any
  `max_chars` and sends nothing; the model does not cover that case for
  `max_chars < 1`.
- CheckReport.AddLineFlushOnlyWhenFull: states only the pairwise bound (each
  written message and the next pass 1990 characters together), which a flush
  at exactly 1990 would also keep; `CheckReport.AddLinePacks` states the exact
  flush rule.
- CheckReport.AddEntriesFlushOnlyWhenFull: the same pairwise bound for the
  whole loop; `CheckReport.AddEntriesPack` and `CheckReport.PackedReply` state
  the exact rule.
- CheckReport.CheckMessagesFit: the bound needs each header plus each line to
  fit in 1990 characters. Without that, a single long line is sent in one
  message of any length. If it is the very first error line, the empty reply
  is flushed before it.

=== FILE: asset_aggregator.dfy ===
/**
 Collecting one inventory snapshot per linked identity of a user
 (`get_author_assets` in src/main.py).

 The network fetch is a parameter: for every identity it either produces a
 snapshot or fails. The policy is asymmetric. Any failure of a character fetch
 ends the whole collection. A corporation fetch that fails with an assertion
 failure (the provider rejected the stored credential) deletes that identity
 and moves on; any other corporation failure ends the collection, keeping the
 deletions already made. The lazy generator is modelled as the list of
 snapshots it yields plus a flag saying whether it ended by an exception.
 */
module AssetAggregator {
  import opened IdentityStore

  /** What the asset provider returned for one identity. Its holdings are not
      part of this model; only what the report needs for its headers is kept. */
  datatype Snapshot = Snapshot(isCorporation: bool, characterName: string, corporationName: string)

  datatype FetchError =
    | AssertionFailure   // the credential was rejected
    | OtherFailure       // any other exception

  datatype FetchOutcome = Fetched(snapshot: Snapshot) | Failed(error: FetchError)

  /** The character loop: snapshots yielded and whether a failure ended it. */
  datatype CharacterRun = CharacterRun(yielded: seq<Snapshot>, aborted: bool)

  /** The corporation loop: snapshots yielded, the rows left in the table, and
      whether a failure ended it. */
  datatype CorporationRun = CorporationRun(
    yielded: seq<Snapshot>,
    kept: seq<CorporationCharacter>,
    aborted: bool)

  /** One run of `get_author_assets`: what was yielded, the user table after
      it, and whether it ended by an exception. */
  datatype Collection = Collection(snapshots: seq<Snapshot>, users: map<UserId, Account>, aborted: bool)

  /** The first loop of `get_author_assets`: yields the snapshots of the longest
      prefix of characters whose fetch succeeded, and aborts at the first failure. */
  function CollectCharacters(chars: seq<Character>, fetch: Character -> FetchOutcome): (r: CharacterRun)
    ensures r.aborted <==> exists i :: 0 <= i < |chars| && fetch(chars[i]).Failed?
    ensures |r.yielded| <= |chars|
    ensures forall i :: 0 <= i < |r.yielded| ==> fetch(chars[i]) == Fetched(r.yielded[i])
    ensures r.aborted ==> |r.yielded| < |chars| && fetch(chars[|r.yielded|]).Failed?
    ensures !r.aborted ==> |r.yielded| == |chars|
    decreases |chars|
  {
    if |chars| == 0 then CharacterRun([], false)
    else
      match fetch(chars[0])
      case Failed(_) => CharacterRun([], true)
      case Fetched(s) =>
        var rest := CollectCharacters(chars[1..], fetch);
        assert forall i :: 1 <= i < |chars| ==> chars[1..][i - 1] == chars[i];
        CharacterRun([s] + rest.yielded, rest.aborted)
  }

  /** The second loop of `get_author_assets`, mirroring its try/except/else. */
  function CollectCorporations(corps: seq<CorporationCharacter>, fetch: CorporationCharacter -> FetchOutcome): (r: CorporationRun)
    decreases |corps|
  {
    if |corps| == 0 then CorporationRun([], [], false)
    else
      match fetch(corps[0])
      case Failed(AssertionFailure) =>
        CollectCorporations(corps[1..], fetch)
      case Failed(OtherFailure) =>
        CorporationRun([], corps, true)
      case Fetched(s) =>
        var rest := CollectCorporations(corps[1..], fetch);
        CorporationRun([s] + rest.yielded, [corps[0]] + rest.kept, rest.aborted)
  }

  /** Index of the first corporation identity whose fetch fails with anything
      but an assertion failure, or the number of identities when there is none. */
  function FirstFatal(corps: seq<CorporationCharacter>, fetch: CorporationCharacter -> FetchOutcome): (k: nat)
    ensures k <= |corps|
    decreases |corps|
  {
    if |corps| == 0 || fetch(corps[0]) == Failed(OtherFailure) then 0
    else 1 + FirstFatal(corps[1..], fetch)
  }

  /** `FirstFatal` is the first fatal failure: none before it, and one at it
      unless it is the end of the list. */
  lemma {:induction false} FirstFatalIsFirst(corps: seq<CorporationCharacter>, fetch: CorporationCharacter -> FetchOutcome)
    ensures var k := FirstFatal(corps, fetch);
            && (forall j :: 0 <= j < k ==> fetch(corps[j]) != Failed(OtherFailure))
            && (k < |corps| ==> fetch(corps[k]) == Failed(OtherFailure))
    decreases |corps|
  {
    if |corps| > 0 && fetch(corps[0]) != Failed(OtherFailure) {
      FirstFatalIsFirst(corps[1..], fetch);
      assert forall j :: 1 <= j < |corps| ==> corps[1..][j - 1] == corps[j];
    }
  }

  /** The identities whose fetch was not rejected, in stored order. */
  function Surviving(corps: seq<CorporationCharacter>, fetch: CorporationCharacter -> FetchOutcome): (r: seq<CorporationCharacter>)
    ensures |r| <= |corps|
    decreases |corps|
  {
    if |corps| == 0 then []
    else
      var rest := Surviving(corps[1..], fetch);
      if fetch(corps[0]) == Failed(AssertionFailure) then rest else [corps[0]] + rest
  }

  /** An identity survives exactly when it is in the list and its fetch was not
      rejected. */
  lemma {:induction false} SurvivingMembers(corps: seq<CorporationCharacter>, fetch: CorporationCharacter -> FetchOutcome)
    ensures forall c :: c in Surviving(corps, fetch) <==> c in corps && fetch(c) != Failed(AssertionFailure)
    decreases |corps|
  {
    if |corps| > 0 {
      SurvivingMembers(corps[1..], fetch);
      assert forall c :: c in corps <==> c == corps[0] || c in corps[1..];
    }
  }

  /** The snapshots of the identities whose fetch succeeded, in stored order. */
  function FetchedSnapshots(corps: seq<CorporationCharacter>, fetch: CorporationCharacter -> FetchOutcome): (r: seq<Snapshot>)
    ensures |r| <= |corps|
    decreases |corps|
  {
    if |corps| == 0 then []
    else
      var rest := FetchedSnapshots(corps[1..], fetch);
      match fetch(corps[0])
      case Fetched(s) => [s] + rest
      case Failed(_) => rest
  }

  /** The corporation loop, described without iteration: it processes every
      identity before the first fatal failure, yields the fetched snapshots among
      them, deletes the rejected ones among them, and leaves the identities from
      the fatal one onwards untouched. */
  lemma CollectCorporationsSpec(corps: seq<CorporationCharacter>, fetch: CorporationCharacter -> FetchOutcome)
    ensures var k := FirstFatal(corps, fetch);
            CollectCorporations(corps, fetch)
            == CorporationRun(FetchedSnapshots(corps[..k], fetch), Surviving(corps[..k], fetch) + corps[k..], k < |corps|)
  {
    CollectedSnapshots(corps, fetch);
    CollectedKept(corps, fetch);
    CollectedAborted(corps, fetch);
  }

  /** One iteration of the loop on an identity that does not fail fatally. */
  lemma CollectCorporationsStep(corps: seq<CorporationCharacter>, fetch: CorporationCharacter -> FetchOutcome)
    requires |corps| > 0 && fetch(corps[0]) != Failed(OtherFailure)
    ensures var r, rest := CollectCorporations(corps, fetch), CollectCorporations(corps[1..], fetch);
            && r.yielded == (if fetch(corps[0]).Fetched? then [fetch(corps[0]).snapshot] else []) + rest.yielded
            && r.kept == (if fetch(corps[0]) == Failed(AssertionFailure) then [] else [corps[0]]) + rest.kept
            && r.aborted == rest.aborted
  {
    var rest := CollectCorporations(corps[1..], fetch);
    if fetch(corps[0]).Fetched? {
      var s := fetch(corps[0]).snapshot;
      assert CollectCorporations(corps, fetch) == CorporationRun([s] + rest.yielded, [corps[0]] + rest.kept, rest.aborted);
    } else {
      assert CollectCorporations(corps, fetch) == rest;
      assert [] + rest.yielded == rest.yielded && [] + rest.kept == rest.kept;
    }
  }

  /** Splitting the identities at the first fatal failure, one identity at a time. */
  lemma FirstFatalStep(corps: seq<CorporationCharacter>, fetch: CorporationCharacter -> FetchOutcome)
    requires |corps| > 0 && fetch(corps[0]) != Failed(OtherFailure)
    ensures var k, k' := FirstFatal(corps, fetch), FirstFatal(corps[1..], fetch);
            && k == 1 + k'
            && corps[..k] == [corps[0]] + corps[1..][..k']
            && corps[k..] == corps[1..][k'..]
  {
  }

  /** The loop yields the fetched snapshots of the identities before the first
      fatal failure. */
  lemma {:induction false} CollectedSnapshots(corps: seq<CorporationCharacter>, fetch: CorporationCharacter -> FetchOutcome)
    ensures CollectCorporations(corps, fetch).yielded == FetchedSnapshots(corps[..FirstFatal(corps, fetch)], fetch)
    decreases |corps|
  {
    var k := FirstFatal(corps, fetch);
    if |corps| == 0 || fetch(corps[0]) == Failed(OtherFailure) {
      assert corps[..k] == [];
    } else {
      var tail := corps[1..];
      CollectedSnapshots(tail, fetch);
      CollectCorporationsStep(corps, fetch);
      FirstFatalStep(corps, fetch);
      FilterCons(corps[0], tail[..FirstFatal(tail, fetch)], fetch);
    }
  }

  /** The loop deletes the rejected identities before the first fatal failure
      and keeps everything from that failure on. */
  lemma {:induction false} CollectedKept(corps: seq<CorporationCharacter>, fetch: CorporationCharacter -> FetchOutcome)
    ensures var k := FirstFatal(corps, fetch);
            CollectCorporations(corps, fetch).kept == Surviving(corps[..k], fetch) + corps[k..]
    decreases |corps|
  {
    var k := FirstFatal(corps, fetch);
    if |corps| == 0 {
      assert corps[..k] == [] && corps[k..] == [];
    } else if fetch(corps[0]) == Failed(OtherFailure) {
      assert corps[..k] == [] && corps[k..] == corps;
    } else {
      var tail := corps[1..];
      var k' := FirstFatal(tail, fetch);
      var head := if fetch(corps[0]) == Failed(AssertionFailure) then [] else [corps[0]];
      var survivors, after := Surviving(tail[..k'], fetch), tail[k'..];
      CollectedKept(tail, fetch);
      CollectCorporationsStep(corps, fetch);
      FirstFatalStep(corps, fetch);
      FilterCons(corps[0], tail[..k'], fetch);
      AppendAssoc(head, survivors, after);
    }
  }

  lemma AppendAssoc<T>(a: seq<T>, b: seq<T>, c: seq<T>)
    ensures (a + b) + c == a + (b + c)
  {
  }

  /** The loop ends by an exception exactly when some identity fails fatally. */
  lemma {:induction false} CollectedAborted(corps: seq<CorporationCharacter>, fetch: CorporationCharacter -> FetchOutcome)
    ensures CollectCorporations(corps, fetch).aborted <==> FirstFatal(corps, fetch) < |corps|
    decreases |corps|
  {
    if |corps| > 0 && fetch(corps[0]) != Failed(OtherFailure) {
      CollectedAborted(corps[1..], fetch);
    }
  }

  /** Processing one more identity in front of a list. */
  lemma FilterCons(c: CorporationCharacter, tail: seq<CorporationCharacter>, fetch: CorporationCharacter -> FetchOutcome)
    ensures FetchedSnapshots([c] + tail, fetch)
            == (if fetch(c).Fetched? then [fetch(c).snapshot] else []) + FetchedSnapshots(tail, fetch)
    ensures Surviving([c] + tail, fetch)
            == (if fetch(c) == Failed(AssertionFailure) then [] else [c]) + Surviving(tail, fetch)
  {
  }

  /** Which corporation identities remain after the loop: exactly those that were
      not rejected before the first fatal failure, plus all from that failure on.
      When nothing fatal happened, exactly the identities that were not rejected. */
  lemma {:induction false} KeptCorporations(corps: seq<CorporationCharacter>, fetch: CorporationCharacter -> FetchOutcome)
    ensures var k := FirstFatal(corps, fetch);
            var r := CollectCorporations(corps, fetch);
            forall c :: c in r.kept <==>
              (c in corps[..k] && fetch(c) != Failed(AssertionFailure)) || c in corps[k..]
    ensures var r := CollectCorporations(corps, fetch);
            !r.aborted ==>
              forall c :: c in r.kept <==> c in corps && fetch(c) != Failed(AssertionFailure)
  {
    var k := FirstFatal(corps, fetch);
    CollectCorporationsSpec(corps, fetch);
    SurvivingMembers(corps[..k], fetch);
    var r := CollectCorporations(corps, fetch);
    if !r.aborted {
      assert corps[..k] == corps;
      assert corps[k..] == [];
    }
  }

  /** `get_author_assets`: an unknown user yields nothing; otherwise the
      character snapshots come first in stored order, then the corporation
      snapshots in stored order. */
  function GetAuthorAssets(
    users: map<UserId, Account>,
    user: UserId,
    fetchCharacter: Character -> FetchOutcome,
    fetchCorporation: CorporationCharacter -> FetchOutcome): (r: Collection)
    ensures user !in users ==> r == Collection([], users, false)
    ensures r.users.Keys == users.Keys
    ensures forall v :: v in users && v != user ==> r.users[v] == users[v]
    ensures user in users ==>
              && r.users[user].characters == users[user].characters
              && r.users[user].requirementsFile == users[user].requirementsFile
    // a failing character ends everything: every character before the first
    // failing one is yielded, nothing after it, and no identity is deleted
    ensures user in users && (exists i :: 0 <= i < |users[user].characters| && fetchCharacter(users[user].characters[i]).Failed?) ==>
              var chars := users[user].characters;
              && r.aborted
              && r.users == users
              && |r.snapshots| < |chars|
              && (forall i :: 0 <= i < |r.snapshots| ==> fetchCharacter(chars[i]) == Fetched(r.snapshots[i]))
              && fetchCharacter(chars[|r.snapshots|]).Failed?
    // otherwise every character is yielded, then the corporation loop runs
    ensures user in users && (forall i :: 0 <= i < |users[user].characters| ==> fetchCharacter(users[user].characters[i]).Fetched?) ==>
              var chars := users[user].characters;
              var corps := users[user].corporationCharacters;
              var k := FirstFatal(corps, fetchCorporation);
              && |chars| <= |r.snapshots|
              && (forall i :: 0 <= i < |chars| ==> fetchCharacter(chars[i]) == Fetched(r.snapshots[i]))
              && r.snapshots[|chars|..] == FetchedSnapshots(corps[..k], fetchCorporation)
              && r.users[user].corporationCharacters == Surviving(corps[..k], fetchCorporation) + corps[k..]
              && (r.aborted <==> k < |corps|)
  {
    if user !in users then Collection([], users, false)
    else
      var account := users[user];
      var c := CollectCharacters(account.characters, fetchCharacter);
      if c.aborted then Collection(c.yielded, users, true)
      else
        var p := CollectCorporations(account.corporationCharacters, fetchCorporation);
        CollectCorporationsSpec(account.corporationCharacters, fetchCorporation);
        assert (c.yielded + p.yielded)[|c.yielded|..] == p.yielded;
        Collection(
          c.yielded + p.yielded,
          users[user := account.(corporationCharacters := p.kept)],
          p.aborted)
  }
}

=== FILE: challenge_table.dfy ===
/**
 Issuing a new anti-replay challenge in the `auth` command (src/main.py):
 the user row is fetched or created, every pending challenge of that user is
 deleted, and exactly one new challenge holding the new state is inserted.
 The random state string is a parameter.
 */
module ChallengeTable {
  import opened IdentityStore

  /** The states of `user`'s challenge rows, in table order. */
  function StatesOf(table: seq<ChallengeRow>, user: UserId): seq<string>
  {
    if |table| == 0 then []
    else
      var rest := StatesOf(table[1..], user);
      if table[0].user == user then [table[0].state] + rest else rest
  }

  /** Deleting every pending challenge of `user`: the rows of every other
      user remain, in table order. */
  function DeleteChallenges(table: seq<ChallengeRow>, user: UserId): (r: seq<ChallengeRow>)
    ensures |r| == |table| - |StatesOf(table, user)|
    ensures forall row :: row in r <==> row in table && row.user != user
  {
    if |table| == 0 then []
    else
      var rest := DeleteChallenges(table[1..], user);
      assert forall row :: row in table <==> row == table[0] || row in table[1..];
      if table[0].user == user then rest else [table[0]] + rest
  }

  lemma {:induction false} StatesOfAppend(a: seq<ChallengeRow>, b: seq<ChallengeRow>, user: UserId)
    ensures StatesOf(a + b, user) == StatesOf(a, user) + StatesOf(b, user)
    decreases |a|
  {
    if |a| == 0 {
      assert a + b == b;
    } else {
      assert (a + b)[1..] == a[1..] + b;
      StatesOfAppend(a[1..], b, user);
    }
  }

  /** Deleting one user's challenges empties that user's challenges and leaves
      every other user's challenges as they were, in order. */
  lemma {:induction false} DeleteChallengesStates(table: seq<ChallengeRow>, user: UserId, other: UserId)
    ensures StatesOf(DeleteChallenges(table, user), user) == []
    ensures other != user ==> StatesOf(DeleteChallenges(table, user), other) == StatesOf(table, other)
    decreases |table|
  {
    if |table| != 0 {
      DeleteChallengesStates(table[1..], user, other);
      var rest := DeleteChallenges(table[1..], user);
      if table[0].user != user {
        assert DeleteChallenges(table, user) == [table[0]] + rest;
        assert ([table[0]] + rest)[1..] == rest;
      }
    }
  }

  /** `User.get_or_create`: an existing user row is left alone. */
  function GetOrCreate(users: map<UserId, Account>, user: UserId): (r: map<UserId, Account>)
    ensures r.Keys == users.Keys + {user}
    ensures forall v :: v in users ==> r[v] == users[v]
    ensures user !in users ==> r[user] == NewAccount
  {
    if user in users then users else users[user := NewAccount]
  }

  /** Issuing a new challenge in `auth`: afterwards `user` exists and has exactly one
      challenge, holding the new state; every other user's challenges and every
      existing user row are unchanged. */
  function Auth(db: Db, user: UserId, state: string): (r: Db)
    ensures user in r.users
    ensures forall v :: v in db.users ==> v in r.users && r.users[v] == db.users[v]
    ensures r.users.Keys == db.users.Keys + {user}
    ensures StatesOf(r.challenges, user) == [state]
    ensures forall v :: v != user ==> StatesOf(r.challenges, v) == StatesOf(db.challenges, v)
  {
    var users := GetOrCreate(db.users, user);
    var kept := DeleteChallenges(db.challenges, user);
    var created := ChallengeRow(user, state);
    StatesOfAppend(kept, [created], user);
    DeleteChallengesStates(db.challenges, user, user);
    assert StatesOf([created], user) == [state];
    assert forall v :: v != user ==> StatesOf(kept + [created], v) == StatesOf(db.challenges, v) by {
      forall v | v != user
        ensures StatesOf(kept + [created], v) == StatesOf(db.challenges, v)
      {
        StatesOfAppend(kept, [created], v);
        DeleteChallengesStates(db.challenges, user, v);
        assert StatesOf([created], v) == [];
      }
    }
    Db(users, kept + [created])
  }

  /** The table invariant the schema promises: no user has two pending challenges. */
  ghost predicate AtMostOnePerUser(table: seq<ChallengeRow>)
  {
    forall u :: |StatesOf(table, u)| <= 1
  }

  lemma AuthKeepsAtMostOnePerUser(db: Db, user: UserId, state: string)
    requires AtMostOnePerUser(db.challenges)
    ensures AtMostOnePerUser(Auth(db, user, state).challenges)
  {
  }

  /** Running `auth` once per state, in order. */
  function AuthAll(db: Db, user: UserId, states: seq<string>): Db
    decreases |states|
  {
    if |states| == 0 then db else AuthAll(Auth(db, user, states[0]), user, states[1..])
  }

  /** After any number of `auth` calls by one user, that user holds exactly one
      challenge, the one from the latest call. */
  lemma {:induction false} LatestChallengeWins(db: Db, user: UserId, states: seq<string>)
    requires |states| > 0
    ensures StatesOf(AuthAll(db, user, states).challenges, user) == [states[|states| - 1]]
    decreases |states|
  {
    if |states| > 1 {
      LatestChallengeWins(Auth(db, user, states[0]), user, states[1..]);
    }
  }
}

=== FILE: check_report.dfy ===
/**
 Assembling the reply of the `check` command (src/main.py).

 For every snapshot the bot lists the error lines the requirement check
 produced. The identity's header is written lazily, just before that
 identity's first error line, so an identity without errors gets no header.
 The reply text is accumulated and sent early whenever appending the next line
 and header would take it past 1990 characters. The error lines themselves
 come from the requirement checker, which is not part of this model: each
 snapshot arrives paired with its lines.
 */
module CheckReport {
  import opened IdentityStore
  import opened AssetAggregator

  /** The reply is flushed before it would grow past this many characters. */
  const FlushLimit: nat := 1990

  const NoRequirementsReply := "You have not set a requirements file, use the !set command and upload one!"
  const NoErrorsReply := "**No State Errors found!**"
  const NoCharactersReply := "You have no authorized characters!"

  /** One yielded snapshot with the error lines its requirement check produced. */
  datatype Entry = Entry(snapshot: Snapshot, errors: seq<string>)

  /** The loop state of `check`: the reply being built, whether any error line
      was seen, and the messages sent so far. */
  datatype Acc = Acc(message: string, hasErrors: bool, sent: seq<string>)

  const Start := Acc("", false, [])

  /** The per-identity header: corporation snapshots are named after the
      corporation, with a trailing colon; character snapshots after the character. */
  function Header(s: Snapshot): (h: string)
    ensures 5 <= |h| && h[..4] == "\n## " && h[|h| - 1] == '\n'
  {
    if s.isCorporation then "\n## " + s.corporationName + ":\n"
    else "\n## " + s.characterName + "\n"
  }

  /** One error line: flush the reply first if the header still to be written
      and the line would take it past the limit, then append the header (if
      any) and the line. `name` is the header still to be written, or "" once
      it has been written. */
  function AddLine(acc: Acc, name: string, line: string): Acc
  {
    var flushed :=
      if |acc.message| + |line| + |name| > FlushLimit then Acc("", acc.hasErrors, acc.sent + [acc.message])
      else acc;
    var named := if |name| > 0 then flushed.message + name else flushed.message;
    Acc(named + line + "\n", true, flushed.sent)
  }

  /** The inner loop over one snapshot's error lines; the header is cleared
      after the first line. */
  function AddLines(acc: Acc, name: string, lines: seq<string>): Acc
    decreases |lines|
  {
    if |lines| == 0 then acc
    else AddLines(AddLine(acc, name, lines[0]), "", lines[1..])
  }

  /** The body of the outer loop for one snapshot: its error lines under its
      header when a requirements file is set, otherwise the notice. */
  function AddEntry(acc: Acc, entry: Entry, hasRequirements: bool): Acc
  {
    if hasRequirements then AddLines(acc, Header(entry.snapshot), entry.errors)
    else acc.(sent := acc.sent + [NoRequirementsReply])
  }

  /** The outer loop over the yielded snapshots, in order. */
  function AddEntries(acc: Acc, entries: seq<Entry>, hasRequirements: bool): Acc
    decreases |entries|
  {
    if |entries| == 0 then acc
    else AddEntries(AddEntry(acc, entries[0], hasRequirements), entries[1..], hasRequirements)
  }

  /** The messages `check` sends after "Fetching assets...". When the snapshot
      collection ended by an exception, that exception leaves the command and no
      final reply is sent. */
  function Check(entries: seq<Entry>, hasRequirements: bool, aborted: bool): (sent: seq<string>)
    ensures !aborted && |entries| == 0 ==> sent == [NoCharactersReply]
    ensures hasRequirements && !aborted && |entries| > 0 && !AnyErrors(entries) ==> sent == [NoErrorsReply]
    ensures hasRequirements && !aborted && AnyErrors(entries) ==> Flatten(sent) == Body(entries)
    ensures hasRequirements ==> FlushedOnlyWhenFull(sent)
    ensures hasRequirements && !aborted && AnyErrors(entries) ==> exists groups :: Packing(groups, Units(entries), sent)
    ensures hasRequirements && aborted ==> Flatten(sent) <= Body(entries)
    ensures !hasRequirements ==>
              && |entries| <= |sent|
              && (forall i :: 0 <= i < |entries| ==> sent[i] == NoRequirementsReply)
              && sent[|entries|..] == (if aborted then [] else if |entries| > 0 then [NoErrorsReply] else [NoCharactersReply])
  {
    var acc := AddEntries(Start, entries, hasRequirements);
    ReportFacts(entries);
    NoRequirementsFacts(entries);
    if aborted then acc.sent
    else if |entries| > 0 then (if acc.hasErrors then acc.sent + [acc.message] else acc.sent + [NoErrorsReply])
    else acc.sent + [NoCharactersReply]
  }

  /** What `Check` needs to know about the reply built with a requirements file set. */
  lemma ReportFacts(entries: seq<Entry>)
    ensures var acc := AddEntries(Start, entries, true);
            && acc.hasErrors == AnyErrors(entries)
            && (!AnyErrors(entries) ==> acc == Start)
            && Flatten(acc.sent) + acc.message == Body(entries)
            && Flatten(acc.sent + [acc.message]) == Body(entries)
            && FlushedOnlyWhenFull(acc.sent + [acc.message])
            && FlushedOnlyWhenFull(acc.sent)
            && exists groups :: Packing(groups, Units(entries), acc.sent + [acc.message])
  {
    var acc := AddEntries(Start, entries, true);
    AddEntriesHasErrors(Start, entries, true);
    AddEntriesText(Start, entries);
    NoErrorsNothingSent(Start, entries);
    FlattenAppend(acc.sent, acc.message);
    AddEntriesFlushOnlyWhenFull(Start, entries);
    SentFlushedOnlyWhenFull(acc);
    PackedReply(entries);
  }

  /** What `Check` needs to know about the replies built without a requirements file. */
  lemma NoRequirementsFacts(entries: seq<Entry>)
    ensures var acc := AddEntries(Start, entries, false);
            && !acc.hasErrors
            && acc.sent == seq(|entries|, _ => NoRequirementsReply)
  {
    AddEntriesHasErrors(Start, entries, false);
    AddEntriesWithoutRequirements(Start, entries);
  }

  /** The whole `check` command for one user: collect the snapshots, pair each
      with the error lines the requirement checker reports for it, and build the
      reply. Returns the messages sent and the user table afterwards. */
  function CheckCommand(
    users: map<UserId, Account>,
    user: UserId,
    fetchCharacter: Character -> FetchOutcome,
    fetchCorporation: CorporationCharacter -> FetchOutcome,
    errorsOf: Snapshot -> seq<string>): (r: (seq<string>, map<UserId, Account>))
    ensures user !in users ==> r == ([NoCharactersReply], users)
    ensures user in users && |users[user].characters| > 0 && fetchCharacter(users[user].characters[0]).Failed? ==>
              r == ([], users)
    ensures user in users && !HasRequirements(users[user]) && |users[user].characters| > 0
              && fetchCharacter(users[user].characters[0]).Fetched? ==>
              0 < |r.0| && r.0[0] == NoRequirementsReply
  {
    var c := GetAuthorAssets(users, user, fetchCharacter, fetchCorporation);
    var entries := seq(|c.snapshots|, i requires 0 <= i < |c.snapshots| => Entry(c.snapshots[i], errorsOf(c.snapshots[i])));
    var hasRequirements := user in c.users && HasRequirements(c.users[user]);
    assert user in users && |users[user].characters| > 0 ==>
             (fetchCharacter(users[user].characters[0]).Failed? <==> c.aborted && |c.snapshots| == 0);
    assert |entries| == |c.snapshots|;
    (Check(entries, hasRequirements, c.aborted), c.users)
  }

  // ---------------------------------------------------------------------------
  // Reference view: the text of the report, ignoring where it was split.

  predicate AnyErrors(entries: seq<Entry>)
  {
    exists i :: 0 <= i < |entries| && |entries[i].errors| > 0
  }

  /** The concatenation of a sequence of sequences, such as messages into text. */
  function Flatten<T>(xs: seq<seq<T>>): seq<T>
  {
    if |xs| == 0 then [] else xs[0] + Flatten(xs[1..])
  }

  function LinesText(lines: seq<string>): string
  {
    if |lines| == 0 then "" else lines[0] + "\n" + LinesText(lines[1..])
  }

  /** What one identity contributes: nothing when it has no error lines,
      otherwise its header followed by its lines. */
  function Section(e: Entry): string
  {
    if |e.errors| == 0 then "" else Header(e.snapshot) + LinesText(e.errors)
  }

  function Body(entries: seq<Entry>): string
  {
    if |entries| == 0 then "" else Section(entries[0]) + Body(entries[1..])
  }

  /** Everything written so far: the messages sent plus the reply being built. */
  function Text(acc: Acc): string
  {
    Flatten(acc.sent) + acc.message
  }

  lemma {:induction false} FlattenAppend<T>(xs: seq<seq<T>>, x: seq<T>)
    ensures Flatten(xs + [x]) == Flatten(xs) + x
    decreases |xs|
  {
    if |xs| == 0 {
      assert xs + [x] == [x];
      assert Flatten([x]) == x + Flatten([]);
    } else {
      assert (xs + [x])[1..] == xs[1..] + [x];
      FlattenAppend(xs[1..], x);
    }
  }

  lemma {:induction false} FlattenConcat<T>(xs: seq<seq<T>>, ys: seq<seq<T>>)
    ensures Flatten(xs + ys) == Flatten(xs) + Flatten(ys)
    decreases |xs|
  {
    if |xs| == 0 {
      assert xs + ys == ys;
    } else {
      assert (xs + ys)[1..] == xs[1..] + ys;
      FlattenConcat(xs[1..], ys);
    }
  }

  /** Flushing moves text between sent messages and the reply; it never loses any. */
  lemma AddLineText(acc: Acc, name: string, line: string)
    ensures Text(AddLine(acc, name, line)) == Text(acc) + name + line + "\n"
  {
    FlattenAppend(acc.sent, acc.message);
  }

  lemma {:induction false} AddLinesText(acc: Acc, name: string, lines: seq<string>)
    ensures Text(AddLines(acc, name, lines)) == Text(acc) + (if |lines| > 0 then name else "") + LinesText(lines)
    decreases |lines|
  {
    if |lines| > 0 {
      var next := AddLine(acc, name, lines[0]);
      AddLineText(acc, name, lines[0]);
      AddLinesText(next, "", lines[1..]);
    }
  }

  /** One identity adds its section: its header and lines, or nothing. */
  lemma AddEntryText(acc: Acc, e: Entry)
    ensures Text(AddEntry(acc, e, true)) == Text(acc) + Section(e)
  {
    AddLinesText(acc, Header(e.snapshot), e.errors);
  }

  /** With a requirements file set, the text written is exactly the reference body. */
  lemma {:induction false} AddEntriesText(acc: Acc, entries: seq<Entry>)
    ensures Text(AddEntries(acc, entries, true)) == Text(acc) + Body(entries)
    decreases |entries|
  {
    if |entries| > 0 {
      var e := entries[0];
      var next := AddEntry(acc, e, true);
      var rest := entries[1..];
      var before, section, after := Text(acc), Section(e), Body(rest);
      assert Text(AddEntries(next, rest, true)) == Text(next) + after by {
        AddEntriesText(next, rest);
      }
      assert Text(next) == before + section by {
        AddEntryText(acc, e);
      }
      assert AddEntries(acc, entries, true) == AddEntries(next, rest, true);
      assert Body(entries) == section + after;
      assert (before + section) + after == before + (section + after);
    }
  }

  lemma {:induction false} AddEntriesHasErrors(acc: Acc, entries: seq<Entry>, hasRequirements: bool)
    ensures AddEntries(acc, entries, hasRequirements).hasErrors
            == (acc.hasErrors || (hasRequirements && AnyErrors(entries)))
    decreases |entries|
  {
    if |entries| > 0 {
      var e := entries[0];
      var next := AddEntry(acc, e, hasRequirements);
      AddLinesHasErrors(acc, Header(e.snapshot), e.errors);
      AddEntriesHasErrors(next, entries[1..], hasRequirements);
      assert AnyErrors(entries) <==> |e.errors| > 0 || AnyErrors(entries[1..]) by {
        if AnyErrors(entries[1..]) {
          var i :| 0 <= i < |entries[1..]| && |entries[1..][i].errors| > 0;
          assert entries[i + 1] == entries[1..][i];
        }
        if AnyErrors(entries) && |e.errors| == 0 {
          var i :| 0 <= i < |entries| && |entries[i].errors| > 0;
          assert entries[1..][i - 1] == entries[i];
        }
      }
    }
  }

  lemma {:induction false} AddLinesHasErrors(acc: Acc, name: string, lines: seq<string>)
    ensures AddLines(acc, name, lines).hasErrors == (acc.hasErrors || |lines| > 0)
    decreases |lines|
  {
    if |lines| > 0 {
      AddLinesHasErrors(AddLine(acc, name, lines[0]), "", lines[1..]);
    }
  }

  /** Without any error line nothing is sent or written by the loop. */
  lemma {:induction false} NoErrorsNothingSent(acc: Acc, entries: seq<Entry>)
    ensures !AnyErrors(entries) ==> AddEntries(acc, entries, true) == acc
    decreases |entries|
  {
    if |entries| > 0 && !AnyErrors(entries) {
      assert |entries[0].errors| == 0;
      assert !AnyErrors(entries[1..]) by {
        forall i | 0 <= i < |entries[1..]|
          ensures |entries[1..][i].errors| == 0
        {
          assert entries[1..][i] == entries[i + 1];
        }
      }
      NoErrorsNothingSent(acc, entries[1..]);
    }
  }

  /** Without a requirements file each snapshot sends the same notice, and nothing else happens. */
  lemma {:induction false} AddEntriesWithoutRequirements(acc: Acc, entries: seq<Entry>)
    ensures var r := AddEntries(acc, entries, false);
            && r.message == acc.message
            && r.hasErrors == acc.hasErrors
            && r.sent == acc.sent + seq(|entries|, _ => NoRequirementsReply)
    decreases |entries|
  {
    if |entries| > 0 {
      AddEntriesWithoutRequirements(AddEntry(acc, entries[0], false), entries[1..]);
      assert acc.sent + [NoRequirementsReply] + seq(|entries| - 1, _ => NoRequirementsReply)
          == acc.sent + seq(|entries|, _ => NoRequirementsReply);
    }
  }

  // ---------------------------------------------------------------------------
  // Message sizes.

  /** Every header-plus-line fits under the flush limit. */
  predicate LinesFit(entries: seq<Entry>)
  {
    forall i, j :: 0 <= i < |entries| && 0 <= j < |entries[i].errors| ==>
      |Header(entries[i].snapshot)| + |entries[i].errors[j]| <= FlushLimit
  }

  predicate Fits(acc: Acc)
  {
    && |acc.message| <= FlushLimit + 1
    && (acc.hasErrors <==> |acc.message| > 0)
    && forall k :: 0 <= k < |acc.sent| ==> 0 < |acc.sent[k]| <= FlushLimit + 1
  }

  lemma AddLineFits(acc: Acc, name: string, line: string)
    requires Fits(acc)
    requires |name| + |line| <= FlushLimit
    ensures Fits(AddLine(acc, name, line))
  {
  }

  lemma {:induction false} AddLinesFit(acc: Acc, name: string, lines: seq<string>)
    requires Fits(acc)
    requires forall j :: 0 <= j < |lines| ==> |name| + |lines[j]| <= FlushLimit
    ensures Fits(AddLines(acc, name, lines))
    decreases |lines|
  {
    if |lines| > 0 {
      AddLineFits(acc, name, lines[0]);
      AddLinesFit(AddLine(acc, name, lines[0]), "", lines[1..]);
    }
  }

  lemma {:induction false} AddEntriesFit(acc: Acc, entries: seq<Entry>, hasRequirements: bool)
    requires Fits(acc)
    requires LinesFit(entries)
    ensures Fits(AddEntries(acc, entries, hasRequirements))
    decreases |entries|
  {
    if |entries| > 0 {
      var e := entries[0];
      if hasRequirements {
        assert forall j :: 0 <= j < |e.errors| ==> |Header(e.snapshot)| + |e.errors[j]| <= FlushLimit by {
          forall j | 0 <= j < |e.errors|
            ensures |Header(e.snapshot)| + |e.errors[j]| <= FlushLimit
          {
            assert e.errors[j] == entries[0].errors[j];
          }
        }
        AddLinesFit(acc, Header(e.snapshot), e.errors);
      }
      assert LinesFit(entries[1..]) by {
        forall i, j | 0 <= i < |entries[1..]| && 0 <= j < |entries[1..][i].errors|
          ensures |Header(entries[1..][i].snapshot)| + |entries[1..][i].errors[j]| <= FlushLimit
        {
          assert entries[1..][i] == entries[i + 1];
        }
      }
      AddEntriesFit(AddEntry(acc, e, hasRequirements), entries[1..], hasRequirements);
    }
  }

  /** When every header together with each of its error lines fits under the
      flush limit, every message `check` sends is non-empty and below the chat
      surface's 2000-character limit. */
  lemma CheckMessagesFit(entries: seq<Entry>, hasRequirements: bool, aborted: bool)
    requires LinesFit(entries)
    ensures var sent := Check(entries, hasRequirements, aborted);
            forall k :: 0 <= k < |sent| ==> 0 < |sent[k]| <= FlushLimit + 1
  {
    AddEntriesFit(Start, entries, hasRequirements);
  }

  // ---------------------------------------------------------------------------
  // A pairwise bound on early flushes.

  /** Each message together with the next one passes the flush limit. This is
      necessary for sending no message early, but not sufficient: `Packing`
      below states the exact greedy rule. */
  predicate FlushedOnlyWhenFull(msgs: seq<string>)
  {
    forall k :: 0 <= k < |msgs| - 1 ==> |msgs[k]| + |msgs[k + 1]| > FlushLimit
  }

  /** One error line keeps each written message and the next together past
      the flush limit. This does not pin down the flush test itself;
      `AddLinePacks` does. */
  lemma AddLineFlushOnlyWhenFull(acc: Acc, name: string, line: string)
    requires FlushedOnlyWhenFull(Written(acc))
    ensures FlushedOnlyWhenFull(Written(AddLine(acc, name, line)))
  {
    var r := AddLine(acc, name, line);
    var w, w' := Written(acc), Written(r);
    if |acc.message| + |line| + |name| > FlushLimit {
      assert w' == w + [r.message];
      forall k | 0 <= k < |w'| - 1
        ensures |w'[k]| + |w'[k + 1]| > FlushLimit
      {
        if k < |w| - 1 {
          assert w'[k] == w[k] && w'[k + 1] == w[k + 1];
        }
      }
    } else {
      assert |w'| == |w|;
      forall k | 0 <= k < |w'| - 1
        ensures |w'[k]| + |w'[k + 1]| > FlushLimit
      {
        assert w'[k] == w[k];
        assert |w'[k + 1]| >= |w[k + 1]|;
      }
    }
  }

  /** What was already sent is a prefix of what was written. */
  lemma SentFlushedOnlyWhenFull(acc: Acc)
    requires FlushedOnlyWhenFull(Written(acc))
    ensures FlushedOnlyWhenFull(acc.sent)
  {
    forall k | 0 <= k < |acc.sent| - 1
      ensures |acc.sent[k]| + |acc.sent[k + 1]| > FlushLimit
    {
      assert acc.sent[k] == Written(acc)[k] && acc.sent[k + 1] == Written(acc)[k + 1];
    }
  }

  lemma {:induction false} AddLinesFlushOnlyWhenFull(acc: Acc, name: string, lines: seq<string>)
    requires FlushedOnlyWhenFull(Written(acc))
    ensures FlushedOnlyWhenFull(Written(AddLines(acc, name, lines)))
    decreases |lines|
  {
    if |lines| > 0 {
      AddLineFlushOnlyWhenFull(acc, name, lines[0]);
      AddLinesFlushOnlyWhenFull(AddLine(acc, name, lines[0]), "", lines[1..]);
    }
  }

  /** With a requirements file set, each message of the reply and the next
      one together pass the flush limit. */
  lemma {:induction false} AddEntriesFlushOnlyWhenFull(acc: Acc, entries: seq<Entry>)
    requires FlushedOnlyWhenFull(Written(acc))
    ensures FlushedOnlyWhenFull(Written(AddEntries(acc, entries, true)))
    decreases |entries|
  {
    if |entries| > 0 {
      AddLinesFlushOnlyWhenFull(acc, Header(entries[0].snapshot), entries[0].errors);
      AddEntriesFlushOnlyWhenFull(AddEntry(acc, entries[0], true), entries[1..]);
    }
  }

  // ---------------------------------------------------------------------------
  // The reply is a greedy packing of its lines into messages.

  /** The units one identity contributes: its header with its first error
      line, then each further line, every one followed by a newline. */
  function LineUnits(name: string, lines: seq<string>): seq<string>
    decreases |lines|
  {
    if |lines| == 0 then [] else [name + lines[0] + "\n"] + LineUnits("", lines[1..])
  }

  /** The units of the whole report, in order: no flush ever falls inside one. */
  function Units(entries: seq<Entry>): seq<string>
  {
    if |entries| == 0 then [] else LineUnits(Header(entries[0].snapshot), entries[0].errors) + Units(entries[1..])
  }

  /** `msgs` is `units` packed greedily, `groups[k]` holding the units of
      `msgs[k]`: the groups are consecutive runs of the units; a message that
      had a unit added to it (every message but the first starts with the unit
      that opened it) is at most `FlushLimit + 1` characters long; and a message
      was closed only because the first unit of the next one would not have
      fitted. Since a unit is `name + line + "\n"`, the source's test
      `|message| + |line| + |name| > 1990` is `|message| + |unit| > 1991`. */
  predicate Packing(groups: seq<seq<string>>, units: seq<string>, msgs: seq<string>)
  {
    && |groups| == |msgs|
    && Flatten(groups) == units
    && (forall k {:trigger msgs[k]} :: 0 <= k < |msgs| ==> msgs[k] == Flatten(groups[k]))
    && (forall k {:trigger msgs[k]} :: 0 <= k < |msgs| && (k == 0 || |groups[k]| > 1) ==> |msgs[k]| <= FlushLimit + 1)
    && (forall k :: 0 < k < |groups| ==> |groups[k]| > 0)
    && (forall k {:trigger msgs[k]} :: 0 <= k < |msgs| - 1 ==> |msgs[k]| + |groups[k + 1][0]| > FlushLimit + 1)
  }

  /** The units of each message after one more unit: it opens a new message
      when the reply was flushed, otherwise it joins the last one. */
  function PackUnit(groups: seq<seq<string>>, u: string, flushed: bool): seq<seq<string>>
    requires |groups| > 0
  {
    if flushed then groups + [[u]] else groups[|groups| - 1 := groups[|groups| - 1] + [u]]
  }

  /** A unit that does not fit opens a new message. */
  lemma FlushPacking(groups: seq<seq<string>>, units: seq<string>, msgs: seq<string>, u: string)
    requires Packing(groups, units, msgs) && |msgs| > 0
    requires |msgs[|msgs| - 1]| + |u| > FlushLimit + 1
    ensures Packing(PackUnit(groups, u, true), units + [u], msgs + [u])
  {
    var n := |msgs|;
    var g', w' := PackUnit(groups, u, true), msgs + [u];
    assert Flatten(g') == units + [u] by {
      FlattenAppend(groups, [u]);
    }
    forall k {:trigger w'[k]} | 0 <= k <= n
      ensures w'[k] == Flatten(g'[k])
      ensures (k == 0 || |g'[k]| > 1) ==> |w'[k]| <= FlushLimit + 1
    {
      if k < n {
        assert w'[k] == msgs[k] && g'[k] == groups[k];
      } else {
        assert w'[k] == u && g'[k] == [u];
        assert Flatten([u]) == u + Flatten<char>([]);
      }
    }
    forall k | 0 < k <= n
      ensures |g'[k]| > 0
    {
      if k < n {
        assert g'[k] == groups[k];
      } else {
        assert g'[k] == [u];
      }
    }
    forall k {:trigger w'[k]} | 0 <= k < n
      ensures |w'[k]| + |g'[k + 1][0]| > FlushLimit + 1
    {
      assert w'[k] == msgs[k];
      if k < n - 1 {
        assert g'[k + 1] == groups[k + 1];
      } else {
        assert g'[k + 1] == [u];
      }
    }
  }

  /** Adding a unit to the last group adds it to the end of the units. */
  lemma JoinGroups(groups: seq<seq<string>>, u: string)
    requires |groups| > 0
    ensures Flatten(PackUnit(groups, u, false)) == Flatten(groups) + [u]
  {
    var n := |groups|;
    LastGroupJoined(groups, u);
    FlattenJoin(groups[..n - 1], groups[n - 1], u);
  }

  lemma LastGroupJoined(groups: seq<seq<string>>, u: string)
    requires |groups| > 0
    ensures groups == groups[..|groups| - 1] + [groups[|groups| - 1]]
    ensures PackUnit(groups, u, false) == groups[..|groups| - 1] + [groups[|groups| - 1] + [u]]
  {
    var n := |groups|;
    assert groups == groups[..n - 1] + [groups[n - 1]];
    var g', c := PackUnit(groups, u, false), groups[..n - 1] + [groups[n - 1] + [u]];
    forall i | 0 <= i < n
      ensures g'[i] == c[i]
    {
      if i < n - 1 {
        assert c[i] == groups[i];
      }
    }
  }

  lemma FlattenJoin(init: seq<seq<string>>, last: seq<string>, u: string)
    ensures Flatten(init + [last + [u]]) == Flatten(init + [last]) + [u]
  {
    FlattenAppend(init, last);
    FlattenAppend(init, last + [u]);
    AppendAssoc(Flatten(init), last, [u]);
  }

  /** A unit that fits joins the last message. */
  lemma JoinPacking(groups: seq<seq<string>>, units: seq<string>, msgs: seq<string>, u: string)
    requires Packing(groups, units, msgs) && |msgs| > 0
    requires |msgs[|msgs| - 1]| + |u| <= FlushLimit + 1
    ensures Packing(PackUnit(groups, u, false), units + [u], msgs[|msgs| - 1 := msgs[|msgs| - 1] + u])
  {
    var n := |msgs|;
    var g', w' := PackUnit(groups, u, false), msgs[n - 1 := msgs[n - 1] + u];
    JoinGroups(groups, u);
    forall k {:trigger w'[k]} | 0 <= k < n
      ensures w'[k] == Flatten(g'[k])
      ensures (k == 0 || |g'[k]| > 1) ==> |w'[k]| <= FlushLimit + 1
    {
      if k < n - 1 {
        assert w'[k] == msgs[k] && g'[k] == groups[k];
      } else {
        assert g'[k] == groups[k] + [u];
        FlattenAppend(groups[k], u);
      }
    }
    forall k | 0 < k < n
      ensures |g'[k]| > 0
    {
      assert |groups[k]| > 0;
    }
    forall k {:trigger w'[k]} | 0 <= k < n - 1
      ensures |w'[k]| + |g'[k + 1][0]| > FlushLimit + 1
    {
      assert w'[k] == msgs[k];
      assert |groups[k + 1]| > 0 && |msgs[k]| + |groups[k + 1][0]| > FlushLimit + 1;
      if k < n - 2 {
        assert g'[k + 1] == groups[k + 1];
      } else {
        assert g'[k + 1] == groups[k + 1] + [u];
      }
    }
  }

  /** One error line keeps the written messages a greedy packing of the units
      written so far, the line's unit joining the last message or opening a
      new one exactly as the flush test decides. */
  lemma AddLinePacks(acc: Acc, name: string, line: string, groups: seq<seq<string>>, units: seq<string>)
    requires Packing(groups, units, Written(acc))
    ensures Packing(PackUnit(groups, name + line + "\n", |acc.message| + |line| + |name| > FlushLimit),
                    units + [name + line + "\n"], Written(AddLine(acc, name, line)))
  {
    var u := name + line + "\n";
    var w, r := Written(acc), AddLine(acc, name, line);
    assert w[|w| - 1] == acc.message;
    if |acc.message| + |line| + |name| > FlushLimit {
      assert r.sent == w && r.message == u;
      FlushPacking(groups, units, w, u);
    } else {
      assert r.message == acc.message + u;
      assert Written(r) == w[|w| - 1 := acc.message + u];
      JoinPacking(groups, units, w, u);
    }
  }

  lemma {:induction false} AddLinesPack(acc: Acc, name: string, lines: seq<string>, groups: seq<seq<string>>, units: seq<string>)
    requires Packing(groups, units, Written(acc))
    ensures exists g :: Packing(g, units + LineUnits(name, lines), Written(AddLines(acc, name, lines)))
    decreases |lines|
  {
    if |lines| == 0 {
      assert units + LineUnits(name, lines) == units;
      assert Packing(groups, units + LineUnits(name, lines), Written(AddLines(acc, name, lines)));
    } else {
      var u := name + lines[0] + "\n";
      var next := AddLine(acc, name, lines[0]);
      AddLinePacks(acc, name, lines[0], groups, units);
      AddLinesPack(next, "", lines[1..], PackUnit(groups, u, |acc.message| + |lines[0]| + |name| > FlushLimit), units + [u]);
      var g :| Packing(g, (units + [u]) + LineUnits("", lines[1..]), Written(AddLines(next, "", lines[1..])));
      assert LineUnits(name, lines) == [u] + LineUnits("", lines[1..]);
      AppendAssoc(units, [u], LineUnits("", lines[1..]));
      assert AddLines(acc, name, lines) == AddLines(next, "", lines[1..]);
      assert Packing(g, units + LineUnits(name, lines), Written(AddLines(acc, name, lines)));
    }
  }

  lemma {:induction false} AddEntriesPack(acc: Acc, entries: seq<Entry>, groups: seq<seq<string>>, units: seq<string>)
    requires Packing(groups, units, Written(acc))
    ensures exists g :: Packing(g, units + Units(entries), Written(AddEntries(acc, entries, true)))
    decreases |entries|
  {
    if |entries| == 0 {
      assert units + Units(entries) == units;
      assert Packing(groups, units + Units(entries), Written(AddEntries(acc, entries, true)));
    } else {
      var lineUnits := LineUnits(Header(entries[0].snapshot), entries[0].errors);
      var next := AddEntry(acc, entries[0], true);
      AddLinesPack(acc, Header(entries[0].snapshot), entries[0].errors, groups, units);
      var g :| Packing(g, units + lineUnits, Written(next));
      AddEntriesPack(next, entries[1..], g, units + lineUnits);
      var g' :| Packing(g', (units + lineUnits) + Units(entries[1..]), Written(AddEntries(next, entries[1..], true)));
      assert Units(entries) == lineUnits + Units(entries[1..]);
      AppendAssoc(units, lineUnits, Units(entries[1..]));
      assert AddEntries(acc, entries, true) == AddEntries(next, entries[1..], true);
      assert Packing(g', units + Units(entries), Written(AddEntries(acc, entries, true)));
    }
  }

  /** With a requirements file set, the messages written are the report's
      units packed greedily: a message is sent only when the next unit would
      not fit, and none is longer than needed to hold its units. */
  lemma PackedReply(entries: seq<Entry>)
    ensures exists groups :: Packing(groups, Units(entries), Written(AddEntries(Start, entries, true)))
  {
    assert Flatten<string>([[]]) == [];
    assert Packing([[]], [], Written(Start));
    AddEntriesPack(Start, entries, [[]], []);
    assert [] + Units(entries) == Units(entries);
  }

  lemma {:induction false} LineUnitsText(name: string, lines: seq<string>)
    ensures Flatten(LineUnits(name, lines)) == (if |lines| == 0 then "" else name + LinesText(lines))
    decreases |lines|
  {
    if |lines| > 0 {
      var u := name + lines[0] + "\n";
      var rest := LineUnits("", lines[1..]);
      assert ([u] + rest)[1..] == rest;
      LineUnitsText("", lines[1..]);
      assert Flatten(LineUnits(name, lines)) == u + LinesText(lines[1..]);
    }
  }

  /** The units make up the report text exactly. */
  lemma {:induction false} UnitsText(entries: seq<Entry>)
    ensures Flatten(Units(entries)) == Body(entries)
    decreases |entries|
  {
    if |entries| > 0 {
      var e := entries[0];
      FlattenConcat(LineUnits(Header(e.snapshot), e.errors), Units(entries[1..]));
      LineUnitsText(Header(e.snapshot), e.errors);
      UnitsText(entries[1..]);
    }
  }

  // ---------------------------------------------------------------------------
  // Headers are never separated from their first error line.

  /** `w` occurs in `s` starting at position `p`. */
  predicate OccursAt(w: string, s: string, p: nat)
  {
    p + |w| <= |s| && s[p..p + |w|] == w
  }

  /** `w` occurs contiguously inside `s`. */
  predicate Infix(w: string, s: string)
  {
    exists p: nat :: p <= |s| && OccursAt(w, s, p)
  }

  /** `w` occurs contiguously inside one single message of `msgs`. */
  predicate InOneMessage(w: string, msgs: seq<string>)
  {
    exists k :: 0 <= k < |msgs| && Infix(w, msgs[k])
  }

  /** The messages sent so far followed by the reply being built. */
  function Written(acc: Acc): seq<string>
  {
    acc.sent + [acc.message]
  }

  /** An identity's header followed by its first error line. */
  function Opening(e: Entry): string
    requires |e.errors| > 0
  {
    Header(e.snapshot) + e.errors[0] + "\n"
  }

  lemma InfixExtend(w: string, s: string, tail: string)
    requires Infix(w, s)
    ensures Infix(w, s + tail)
  {
    var p: nat :| p <= |s| && OccursAt(w, s, p);
    assert (s + tail)[p..p + |w|] == s[p..p + |w|];
    assert OccursAt(w, s + tail, p);
  }

  /** Appending a line or flushing keeps every piece of text inside the message it was in. */
  lemma AddLineKeeps(acc: Acc, name: string, line: string, w: string)
    requires InOneMessage(w, Written(acc))
    ensures InOneMessage(w, Written(AddLine(acc, name, line)))
  {
    var r := AddLine(acc, name, line);
    var k :| 0 <= k < |Written(acc)| && Infix(w, Written(acc)[k]);
    if |acc.message| + |line| + |name| > FlushLimit {
      assert Written(r)[k] == Written(acc)[k];
    } else if k < |acc.sent| {
      assert Written(r)[k] == Written(acc)[k];
    } else {
      InfixExtend(w, acc.message, (if |name| > 0 then name else "") + line + "\n");
      assert r.message == acc.message + ((if |name| > 0 then name else "") + line + "\n");
      assert Written(r)[k] == r.message;
    }
  }

  lemma {:induction false} AddLinesKeeps(acc: Acc, name: string, lines: seq<string>, w: string)
    requires InOneMessage(w, Written(acc))
    ensures InOneMessage(w, Written(AddLines(acc, name, lines)))
    decreases |lines|
  {
    if |lines| > 0 {
      AddLineKeeps(acc, name, lines[0], w);
      AddLinesKeeps(AddLine(acc, name, lines[0]), "", lines[1..], w);
    }
  }

  /** The header is written together with the first line, after any flush. */
  lemma AddLinesOpening(acc: Acc, name: string, lines: seq<string>)
    requires |name| > 0 && |lines| > 0
    ensures InOneMessage(name + lines[0] + "\n", Written(AddLines(acc, name, lines)))
  {
    var w := name + lines[0] + "\n";
    var r := AddLine(acc, name, lines[0]);
    var before := if |acc.message| + |lines[0]| + |name| > FlushLimit then "" else acc.message;
    assert r.message == before + w;
    assert r.message[|before|..|before| + |w|] == w;
    assert OccursAt(w, r.message, |before|);
    assert Written(r)[|r.sent|] == r.message;
    AddLinesKeeps(r, "", lines[1..], w);
  }

  lemma {:induction false} AddEntriesKeeps(acc: Acc, entries: seq<Entry>, w: string)
    requires InOneMessage(w, Written(acc))
    ensures InOneMessage(w, Written(AddEntries(acc, entries, true)))
    decreases |entries|
  {
    if |entries| > 0 {
      AddLinesKeeps(acc, Header(entries[0].snapshot), entries[0].errors, w);
      AddEntriesKeeps(AddEntry(acc, entries[0], true), entries[1..], w);
    }
  }

  lemma {:induction false} AddEntriesOpenings(acc: Acc, entries: seq<Entry>)
    ensures forall i :: 0 <= i < |entries| && |entries[i].errors| > 0 ==>
              InOneMessage(Opening(entries[i]), Written(AddEntries(acc, entries, true)))
    decreases |entries|
  {
    if |entries| > 0 {
      var next := AddEntry(acc, entries[0], true);
      AddEntriesOpenings(next, entries[1..]);
      forall i | 0 <= i < |entries| && |entries[i].errors| > 0
        ensures InOneMessage(Opening(entries[i]), Written(AddEntries(acc, entries, true)))
      {
        if i == 0 {
          AddLinesOpening(acc, Header(entries[0].snapshot), entries[0].errors);
          AddEntriesKeeps(next, entries[1..], Opening(entries[0]));
        } else {
          assert entries[1..][i - 1] == entries[i];
        }
      }
    }
  }

  /** Every identity with an error line has its header sent in the same message
      as, and directly before, its first error line. */
  lemma HeaderStaysWithFirstLine(entries: seq<Entry>)
    ensures var sent := Check(entries, true, false);
            forall i :: 0 <= i < |entries| && |entries[i].errors| > 0 ==>
              InOneMessage(Opening(entries[i]), sent)
  {
    AddEntriesOpenings(Start, entries);
    AddEntriesHasErrors(Start, entries, true);
    if AnyErrors(entries) {
      assert Check(entries, true, false) == Written(AddEntries(Start, entries, true));
    }
  }
}

=== FILE: identity_store.dfy ===
/**
 The bot's persisted state (the `User`, `Character`, `CorporationCharacter` and
 `Challenge` tables), as plain values. Row identities are kept so that two
 linked characters with the same token stay distinguishable.
 */
module IdentityStore {

  /** A chat user, keyed by the text form of their chat account id. */
  type UserId = string

  /** A character linked with the individual-asset scope. */
  datatype Character = Character(rowId: nat, refreshToken: string)

  /** A character linked with the corporation-asset scope, for one corporation. */
  datatype CorporationCharacter = CorporationCharacter(rowId: nat, refreshToken: string, corporationId: nat)

  /** One `User` row with its linked identities, in stored order. An empty
      requirements file stands for "not set". */
  datatype Account = Account(
    characters: seq<Character>,
    corporationCharacters: seq<CorporationCharacter>,
    requirementsFile: string)

  /** The row `get_or_create` inserts for a user seen for the first time. */
  const NewAccount := Account([], [], "")

  /** One pending `Challenge` row: the anti-replay state handed out to a user. */
  datatype ChallengeRow = ChallengeRow(user: UserId, state: string)

  /** The whole database: the user table and the challenge table in insertion order. */
  datatype Db = Db(users: map<UserId, Account>, challenges: seq<ChallengeRow>)

  predicate HasRequirements(a: Account)
  {
    |a.requirementsFile| > 0
  }
}

=== FILE: message_splitter.dfy ===
/**
 Splitting a long chat message into pieces the chat surface accepts
 (`send_large_message` in src/main.py).

 The bot repeatedly sends a prefix of at most `maxChars` characters. It prefers
 to cut at the last newline inside the first `maxChars` characters, dropping
 that newline; when there is none it cuts hard after `maxChars` characters.
 Sending is modelled as appending to the list of sent messages. The size limit
 is a parameter; the bot's default of 2000 characters is one value of it.
 */
module MessageSplitter {

  /** How one sent piece was cut off from the rest of the message. */
  datatype Cut =
    | AtNewline   // the piece ended at a newline, which was not sent
    | Hard        // no newline in reach: exactly maxChars characters were sent
    | Last        // the remaining message fitted and was sent whole

  datatype Piece = Piece(text: string, cut: Cut)

  /** Python's `s.rfind('\n', 0, end)`: the largest index below `end` holding
      a newline, or -1 when there is none. */
  function LastNewline(s: string, end: nat): (r: int)
    ensures -1 <= r < end && r < |s|
    ensures 0 <= r ==> s[r] == '\n'
    ensures forall j :: r < j < end && j < |s| ==> s[j] != '\n'
    decreases end
  {
    if end == 0 then -1
    else if end - 1 < |s| && s[end - 1] == '\n' then end - 1
    else LastNewline(s, end - 1)
  }

  /** A piece respects the size limit; a newline cut leaves room for the dropped
      newline, and a hard cut happens only where no newline was in reach. */
  predicate WellCut(p: Piece, maxChars: nat)
  {
    && |p.text| <= maxChars
    && (p.cut == AtNewline ==> |p.text| < maxChars)
    && (p.cut == Hard ==> |p.text| == maxChars && '\n' !in p.text)
  }

  /** The newline a piece's cut dropped, if any. */
  function Sep(p: Piece): string
  {
    if p.cut == AtNewline then "\n" else ""
  }

  /** One iteration of the loop on a message longer than `maxChars`: the piece
      sent and the message that remains. */
  function NextCut(message: string, maxChars: nat): (r: (Piece, string))
    requires 1 <= maxChars < |message|
    ensures |r.1| < |message|
  {
    var i := LastNewline(message, maxChars);
    if i == -1 then (Piece(message[..maxChars], Hard), message[maxChars..])
    else (Piece(message[..i], AtNewline), message[i + 1..])
  }

  /** A cut never loses text: the piece, the dropped newline and the rest make
      up the message again; the piece respects the size limit; and a newline
      cut happens at the last newline within the first `maxChars` characters. */
  lemma NextCutFacts(message: string, maxChars: nat)
    requires 1 <= maxChars < |message|
    ensures var next := NextCut(message, maxChars);
            var p, rest := next.0, next.1;
            && WellCut(p, maxChars)
            && p.cut != Last
            && 0 < |rest|
            && p.text + Sep(p) + rest == message
            && (p.cut == AtNewline ==> forall j :: |p.text| < j < maxChars ==> message[j] != '\n')
  {
  }

  /** The pieces `send_large_message` sends, in order, together with how each was cut. */
  function Split(message: string, maxChars: nat): (r: seq<Piece>)
    requires 1 <= maxChars
    ensures |r| == 0 <==> |message| == 0
    ensures |r| <= |message|
    decreases |message|
  {
    if |message| == 0 then []
    else if |message| <= maxChars then [Piece(message, Last)]
    else
      var next := NextCut(message, maxChars);
      [next.0] + Split(next.1, maxChars)
  }

  /** Every piece respects the size limit and only the last piece is sent whole. */
  lemma {:induction false} SplitWellCut(message: string, maxChars: nat)
    requires 1 <= maxChars
    ensures forall k :: 0 <= k < |Split(message, maxChars)| ==> WellCut(Split(message, maxChars)[k], maxChars)
    ensures forall k :: 0 <= k < |Split(message, maxChars)| ==>
              (Split(message, maxChars)[k].cut == Last <==> k == |Split(message, maxChars)| - 1)
    decreases |message|
  {
    if |message| > maxChars {
      var next := NextCut(message, maxChars);
      var p, rest := next.0, next.1;
      NextCutFacts(message, maxChars);
      SplitWellCut(rest, maxChars);
      var tail := Split(rest, maxChars);
      assert Split(message, maxChars) == [p] + tail;
      assert |tail| > 0;
      WellCutCons(p, tail, maxChars);
    }
  }

  lemma WellCutCons(p: Piece, tail: seq<Piece>, maxChars: nat)
    requires WellCut(p, maxChars) && p.cut != Last && |tail| > 0
    requires forall k :: 0 <= k < |tail| ==> WellCut(tail[k], maxChars)
    requires forall k :: 0 <= k < |tail| ==> (tail[k].cut == Last <==> k == |tail| - 1)
    ensures forall k :: 0 <= k < |[p] + tail| ==> WellCut(([p] + tail)[k], maxChars)
    ensures forall k :: 0 <= k < |[p] + tail| ==> (([p] + tail)[k].cut == Last <==> k == |[p] + tail| - 1)
  {
    var r := [p] + tail;
    forall k | 0 <= k < |r|
      ensures WellCut(r[k], maxChars) && (r[k].cut == Last <==> k == |r| - 1)
    {
      if k == 0 {
        assert r[k] == p;
      } else {
        assert r[k] == tail[k - 1];
      }
    }
  }

  function Texts(pieces: seq<Piece>): (r: seq<string>)
    ensures |r| == |pieces|
    ensures forall k :: 0 <= k < |r| ==> r[k] == pieces[k].text
  {
    if |pieces| == 0 then [] else [pieces[0].text] + Texts(pieces[1..])
  }

  /** Puts the pieces back together, restoring the newline dropped at each newline cut. */
  function Rejoin(pieces: seq<Piece>): string
  {
    if |pieces| == 0 then "" else pieces[0].text + Sep(pieces[0]) + Rejoin(pieces[1..])
  }

  lemma RejoinCons(p: Piece, tail: seq<Piece>)
    ensures Rejoin([p] + tail) == p.text + Sep(p) + Rejoin(tail)
  {
  }

  /** Nothing is lost and nothing is added: rejoining the pieces gives back the message. */
  lemma {:induction false} SplitRejoin(message: string, maxChars: nat)
    requires 1 <= maxChars
    ensures Rejoin(Split(message, maxChars)) == message
    decreases |message|
  {
    if |message| == 0 {
    } else if |message| <= maxChars {
      RejoinCons(Piece(message, Last), []);
    } else {
      var next := NextCut(message, maxChars);
      var p, rest := next.0, next.1;
      NextCutFacts(message, maxChars);
      SplitRejoin(rest, maxChars);
      var tail := Split(rest, maxChars);
      assert Split(message, maxChars) == [p] + tail;
      RejoinCons(p, tail);
    }
  }

  /** A remainder is cut only when it does not fit: every piece but the last is
      cut from a remainder (that piece and all after it, rejoined) longer than
      `maxChars`, so a remainder that fits is sent whole. */
  lemma {:induction false} SplitCutsOnlyWhenTooLong(message: string, maxChars: nat)
    requires 1 <= maxChars
    ensures forall k :: 0 <= k < |Split(message, maxChars)| - 1 ==> |Rejoin(Split(message, maxChars)[k..])| > maxChars
    decreases |message|
  {
    if |message| > maxChars {
      var next := NextCut(message, maxChars);
      var p, rest := next.0, next.1;
      var tail := Split(rest, maxChars);
      var r := [p] + tail;
      SplitCutsOnlyWhenTooLong(rest, maxChars);
      SplitRejoin(message, maxChars);
      assert Split(message, maxChars) == r;
      forall k | 0 <= k < |r| - 1
        ensures |Rejoin(r[k..])| > maxChars
      {
        if k == 0 {
          assert r[k..] == r;
        } else {
          assert r[k..] == tail[k - 1..];
        }
      }
    }
  }

  /** No newline among the first `n` characters of `s`. */
  predicate NoNewlineWithin(s: string, n: int)
  {
    forall j :: 0 <= j < n && j < |s| ==> s[j] != '\n'
  }

  /** After a newline cut, the remaining message has no newline within what is
      left of the `maxChars` window the piece was cut from. */
  lemma NextCutWindow(message: string, maxChars: nat)
    requires 1 <= maxChars < |message|
    ensures var next := NextCut(message, maxChars);
            var p, rest := next.0, next.1;
            p.cut == AtNewline ==> NoNewlineWithin(rest, maxChars - |p.text| - 1)
  {
  }

  /** Every newline cut in `pieces` is at the last newline in reach: the text
      that follows a newline-cut piece has no newline within the rest of the
      `maxChars` window the piece was cut from. */
  predicate CutsAtLastNewline(pieces: seq<Piece>, maxChars: nat)
  {
    forall k :: 0 <= k < |pieces| && pieces[k].cut == AtNewline ==>
      NoNewlineWithin(Rejoin(pieces[k + 1..]), maxChars - |pieces[k].text| - 1)
  }

  lemma CutsAtLastNewlineCons(p: Piece, tail: seq<Piece>, maxChars: nat)
    requires p.cut == AtNewline ==> NoNewlineWithin(Rejoin(tail), maxChars - |p.text| - 1)
    requires CutsAtLastNewline(tail, maxChars)
    ensures CutsAtLastNewline([p] + tail, maxChars)
  {
    var r := [p] + tail;
    forall k | 0 <= k < |r| && r[k].cut == AtNewline
      ensures NoNewlineWithin(Rejoin(r[k + 1..]), maxChars - |r[k].text| - 1)
    {
      if k == 0 {
        assert r[1..] == tail;
      } else {
        var t := tail[k - 1];
        assert r[k] == t;
        assert r[k + 1..] == tail[(k - 1) + 1..];
        assert NoNewlineWithin(Rejoin(tail[(k - 1) + 1..]), maxChars - |t.text| - 1);
      }
    }
  }

  /** `send_large_message` cuts at the last newline in reach. Together with
      `SplitWellCut` and `SplitRejoin` this pins every cut down to the one
      `rfind` picks. */
  lemma {:induction false} SplitCutsAtLastNewline(message: string, maxChars: nat)
    requires 1 <= maxChars
    ensures CutsAtLastNewline(Split(message, maxChars), maxChars)
    decreases |message|
  {
    if |message| > maxChars {
      var next := NextCut(message, maxChars);
      var p, rest := next.0, next.1;
      NextCutWindow(message, maxChars);
      SplitCutsAtLastNewline(rest, maxChars);
      SplitRejoin(rest, maxChars);
      assert Split(message, maxChars) == [p] + Split(rest, maxChars);
      CutsAtLastNewlineCons(p, Split(rest, maxChars), maxChars);
    }
  }

  lemma TextsCons(p: Piece, tail: seq<Piece>)
    ensures Texts([p] + tail) == [p.text] + Texts(tail)
  {
  }

  /** One iteration of the loop sends the first piece of the split and keeps
      the rest of it for later. */
  lemma SendStep(sent: seq<string>, message: string, maxChars: nat)
    requires 1 <= maxChars < |message|
    ensures var next := NextCut(message, maxChars);
            sent + Texts(Split(message, maxChars)) == (sent + [next.0.text]) + Texts(Split(next.1, maxChars))
  {
  }

  /** The messages of the split: none for the empty message, the message itself
      when it fits, and none longer than `maxChars`. */
  lemma SplitTexts(message: string, maxChars: nat)
    requires 1 <= maxChars
    ensures var sent := Texts(Split(message, maxChars));
            && (|message| == 0 ==> sent == [])
            && (0 < |message| <= maxChars ==> sent == [message])
            && (forall k :: 0 <= k < |sent| ==> |sent[k]| <= maxChars)
  {
  }

  /** The loop of `send_large_message`: returns the messages sent, in order. */
  method SendLargeMessage(message: string, maxChars: nat) returns (sent: seq<string>)
    requires 1 <= maxChars
    ensures sent == Texts(Split(message, maxChars))
    ensures |message| == 0 ==> sent == []
    ensures 0 < |message| <= maxChars ==> sent == [message]
    ensures forall k :: 0 <= k < |sent| ==> |sent[k]| <= maxChars
  {
    sent := [];
    var rest := message;
    while |rest| > 0
      invariant sent + Texts(Split(rest, maxChars)) == Texts(Split(message, maxChars))
      decreases |rest|
    {
      if |rest| <= maxChars {
        TextsCons(Piece(rest, Last), []);
        sent := sent + [rest];
        rest := "";
        break;
      }
      var i := LastNewline(rest, maxChars);
      var next := NextCut(rest, maxChars);
      SendStep(sent, rest, maxChars);
      if i == -1 {
        assert next == (Piece(rest[..maxChars], Hard), rest[maxChars..]);
        sent := sent + [rest[..maxChars]];
        rest := rest[maxChars..];
      } else {
        assert next == (Piece(rest[..i], AtNewline), rest[i + 1..]);
        sent := sent + [rest[..i]];
        rest := rest[i + 1..];
      }
    }
    SplitTexts(message, maxChars);
  }
}
